=== FILE: README.md ===
# Institute management: the controllers' decision logic in Dafny

This project models the request handlers of an institute-management backend
(ASP.NET Core controllers over an Entity Framework store) as pure functions over
an in-memory view of the store, and proves what each handler answers and what
it changes.

- The store (`Store.Store`) holds users as a sequence. Login takes the first
  user, in sequence order, whose email equals the supplied one. Students,
  teachers, courses and batches are finite maps from their integer primary key to immutable records. Enrollments
  (the StudentCourses join table) are a sequence, because the code allows
  duplicate rows.
- Every handler returns a `Reply`: an abstract `Outcome` (Ok, Created,
  NoContent, BadRequest, NotFound, Unauthorized, Conflict, ServerError), an
  optional body, and the store after the call. Read handlers return the store
  unchanged, and their contracts say so.
- `ServerError` stands for an unhandled exception. The student profile read
  dereferences `student.User` and `e.Course` without a null check. The model
  treats those keys as nullable, so the relationships are optional and loaded
  by an outer join, and a key that names no row makes the read throw.
- A teacher's `UserId` is a non-nullable `int`, so its `User` relationship is
  required and loaded by an inner join. The teacher reads therefore never see a
  teacher whose user is missing: GET {id} answers NotFound for it, and GET
  leaves it out.
- A navigation property (a student's `User` or `Batch`, a batch's `Course`, a
  course's `Teacher`) counts as present exactly when its foreign key resolves
  to a row of the store.
- Database-assigned keys are an argument `newId` that must not already be a key
  of the table.
- Results that list rows of a table are maps keyed by the row's id, because
  the database's row order is not modelled.

Modules follow the controllers. `Auth` is login and registration. `Admin` is the
administrator's CRUD handlers and the student report. `Students` is the student
endpoints. `Teachers` is the teacher endpoints. `Store` holds the entities,
lookups and keyed-table operations. `Dto` holds the transfer objects and the
projections several handlers share. `Nullable` holds `Option`.

## Model

| member | source | states |
|---|---|---|
| Store.FirstMatchFrom | Controllers/AuthController.cs:77 | a `FirstOrDefault` lookup from a position, taking the first match in table order: the result is the first matching index, with no match before it; None means no user from that position on matches |
| Store.FirstMatch | Controllers/AuthController.cs:40 | the first matching user is the element at the first matching position; None exactly when no user matches |
| Store.UserById | Controllers/AdminController.cs:114-121 | the `User` navigation resolves to a user with that UserId taken from the table, and is null exactly when no user row has that id |
| Store.FirstMatchUnique | Controllers/AuthController.cs:77-87 | when emails are pairwise distinct, the login lookup returns the one user holding the email |
| Store.EnrollmentsOf | Controllers/AdminController.cs:135 | a student's `Enrollments` holds exactly the join rows naming that student, each as often as it occurs in the table, and no join row of another student |
| Store.EnrollmentsOfAppend | Controllers/StudentController.cs:152-160 | a join row appended to the table comes last in its student's collection, and every other student's collection is unchanged |
| Store.EnrolledCount | Controllers/AdminController.cs:462 | `StudentCourses.Count(sc => sc.StudentId == id)` is the length of the student's collection, duplicates included, and never exceeds the number of join rows |
| Store.EnrolledCountZero | Controllers/AdminController.cs:462 | a student's count is 0 exactly when no join row names that student |
| Store.EnrolledCountAppend | Controllers/AdminController.cs:462 | appending one join row raises its student's count by one and leaves every other student's count unchanged |
| Store.DeleteKey | Controllers/AdminController.cs:193-199 | absent key: NotFound and no change; present key: NoContent, exactly that key removed, every other row kept |
| Store.DeleteKeyTwice | Controllers/AdminController.cs:193-194 | a second delete of the same key answers NotFound and changes nothing |
| Store.InsertKey | Controllers/AdminController.cs:169-170 | `Add` of a fresh key: the key set grows by exactly that key, the new row is the given one, and old rows are kept |
| Auth.CheckCredentials | Controllers/AuthController.cs:72-87 | ordered check: a null or empty field is BadRequest before any lookup; then an unknown email is NotFound; then the first user with the email is Accepted if its password equals the supplied one, otherwise Unauthorized |
| Auth.Authenticate | Controllers/AuthController.cs:70-91 | a null body is BadRequest; otherwise the credential verdict, with a token issued for the matched user on Ok; the store is never changed |
| Auth.AuthenticateUser | Controllers/AuthController.cs:33-66 | same ordered check; on Ok the body copies the id, name, email, role and contact details of the matched user and has no password field; the store is never changed |
| Auth.Register | Controllers/AuthController.cs:109-126 | null body or empty email/password gives BadRequest and no change; a taken email gives Conflict and no change; otherwise Created, exactly one user appended with its email now present, existing users and other tables untouched |
| Auth.RegisterKeepsEmailsDistinct | Controllers/AuthController.cs:116-124 | registration preserves "all stored emails are pairwise distinct" |
| Auth.LoginDecidedByEmail | Controllers/AuthController.cs:77-90 | under distinct emails, login answers Ok with a token for the user holding the email exactly when its password matches, and Unauthorized otherwise |
| Auth.RegisterThenLogin | Controllers/AuthController.cs:70-126 | after a successful registration, logging in with the registered email and password is Ok, and the token is for the new row, carrying its role |
| Auth.AuthenticateAgreesWithAuthenticateUser | Controllers/AuthController.cs:33-91 | both login handlers give the same outcome for the same credentials, and on Ok the token and the user answer are for the same user |
| Auth.RegisterSameEmailTwice | Controllers/AuthController.cs:116-119 | registering a second user with an already registered email is Conflict with no change, and the first registration remains the only row with that email |
| Admin.OverwriteStudent | Controllers/AdminController.cs:179-186 | absent id: NotFound, no change; otherwise UserId and BatchId become the body's values as a full overwrite, a null BatchId included; other students and tables are untouched |
| Admin.UpdateStudent | Controllers/AdminController.cs:177-187 | answers NotFound or NoContent with exactly the overwrite's effect |
| Admin.CreateStudent | Controllers/AdminController.cs:161-173 | Created; one new row under a fresh key with the body's UserId and BatchId, no existence check; the body is echoed |
| Admin.DeleteStudent | Controllers/AdminController.cs:191-200 | NotFound and no change on an absent id; otherwise only that student is removed and the other tables are untouched |
| Admin.EnrolledCourseDto | Controllers/AdminController.cs:139-150 | an enrollment's course is null exactly when the course id does not resolve; otherwise it copies id, name and description, and has a teacher exactly when the course's teacher link resolves; that teacher carries the linked TeacherId, the teacher row's UserId and SubjectSpecialization, and no user or courses |
| Admin.GetStudentById | Controllers/AdminController.cs:98-156 | NotFound exactly on an absent id; otherwise Ok with the stored UserId and BatchId; the user and batch are null exactly when their keys do not resolve, so a student with no batch yields a null Batch; a present user copies the user row's public fields; a present batch copies the batch row's id, name, timing and type, with the course summary exactly when the batch's course resolves; the enrollment list has the same length and order as the student's join rows, and each entry's course is the enrollment projection of its row |
| Admin.EnrollmentRows | Controllers/AdminController.cs:135-151 | one enrollment entry per join row, in order, with that row's ids and the course it points at |
| Admin.CreateTeacher | Controllers/AdminController.cs:233-245 | Created; one new teacher row with the body's UserId and SubjectSpecialization; the body is echoed |
| Admin.UpdateTeacher | Controllers/AdminController.cs:249-259 | NotFound and no change on an absent id; otherwise UserId and SubjectSpecialization are overwritten and nothing else changes |
| Admin.DeleteTeacher | Controllers/AdminController.cs:263-272 | NotFound and no change on an absent id; otherwise only that teacher is removed |
| Admin.CreateCourse | Controllers/AdminController.cs:313-326 | Created; the new course has the body's name and description and no teacher, whatever the body's teacher id |
| Admin.UpdateCourse | Controllers/AdminController.cs:330-341 | NotFound and no change on an absent id; otherwise only name and description change, and the course's teacher link is kept |
| Admin.DeleteCourse | Controllers/AdminController.cs:345-354 | NotFound and no change on an absent id; otherwise only that course is removed |
| Admin.CreateBatch | Controllers/AdminController.cs:402-416 | Created; the new batch has the body's name, timing and type and no course, whatever the body's course id |
| Admin.UpdateBatch | Controllers/AdminController.cs:420-432 | NotFound and no change on an absent id; otherwise only name, timing and type change, and the batch's course link is kept |
| Admin.DeleteBatch | Controllers/AdminController.cs:436-445 | NotFound and no change on an absent id; otherwise only that batch is removed |
| Admin.GetStudentReports | Controllers/AdminController.cs:453-467 | one row per student; the user and batch names are null exactly when the links do not resolve, and otherwise are the user's Name and the batch's BatchName; EnrolledCourses is the number of the student's join rows, duplicates included |
| Admin.ReportRowOf | Controllers/AdminController.cs:457-463 | a report row carries the student's id; its UserName is the user's Name and its BatchName the batch's BatchName, each null exactly when the link does not resolve; its count is the number of join rows naming the student |
| Admin.UpdateStudentThenGet | Controllers/AdminController.cs:179-186 | reading a student back after an update shows the posted UserId and BatchId, and a null BatchId reads back as a null Batch |
| Admin.UpdateStudentIdempotent | Controllers/AdminController.cs:179-186 | repeating an update with the same body changes nothing further |
| Admin.EnrollmentRowsFrame | Controllers/AdminController.cs:135-151 | the enrollment projection depends only on the course and teacher tables |
| Admin.EnrollmentRowsAppend | Controllers/AdminController.cs:135-151 | the projection of an appended join row comes after the projections of the earlier rows |
| Admin.CreateStudentThenGet | Controllers/AdminController.cs:161-173 | a created student reads back at once under the new key, with the posted UserId and BatchId, and user and batch present exactly when those ids resolve |
| Admin.ReportMatchesEnrollmentList | Controllers/AdminController.cs:462 | the report's count for a student equals the length of the enrollment list that GetStudentById returns for it |
| Students.GetStudentProfile | Controllers/StudentController.cs:72-116 | NotFound on an absent id; ServerError exactly when the user or some enrolled course does not resolve; otherwise Ok with the user, the batch (null exactly when it does not resolve, so a student with no batch yields a null Batch; when present, the summary of the batch row: id, name, timing and type) and one course summary per join row, in order |
| Students.UpdateStudentProfile | Controllers/StudentController.cs:120-130 | NotFound and no change on an absent id; otherwise Ok echoing the body, and only that student's UserId and BatchId change |
| Students.GetCourses | Controllers/StudentController.cs:134-146 | one DTO per course, keyed by its id, copying name and description, with no teacher |
| Students.EnrollInCourse | Controllers/StudentController.cs:150-161 | Ok; exactly one (StudentId, CourseId) row appended after the existing ones, with no duplicate or existence check; nothing else changes |
| Students.GetStudentBatches | Controllers/StudentController.cs:165-179 | a batch is returned exactly when its CourseId is non-null and equals the CourseId of some join row of the student; each is summarised as id, name, timing and type |
| Students.EnrollThenReport | Controllers/StudentController.cs:152-160 | enrolling adds one to the student's report count, even for a pair already enrolled, and leaves other students' counts unchanged |
| Students.EnrollThenBatches | Controllers/StudentController.cs:167-176 | after enrolling in a course, every batch of that course is among the student's batches, and no earlier batch is lost |
| Students.EnrollThenStudentEnrollments | Controllers/StudentController.cs:152-160 | enrolling appends the new row at the end of the enrollment list the administrator's read answers for that student, and changes no other student's list |
| Students.ProfileAgreesWithGetStudentById | Controllers/StudentController.cs:72-116 | when the profile read succeeds, its UserId, BatchId, user and enrollment ids equal those of the administrator's read |
| Students.UpdateStudentProfileSameStore | Controllers/StudentController.cs:120-130 | the profile update writes exactly the store the administrator's update writes |
| Students.CreateBatchNotInStudentBatches | Controllers/AdminController.cs:402-416 | a newly created batch has no course, so it is not among any student's batches, and every student's batch list is unchanged |
| Students.UpdateBatchKeepsStudentBatches | Controllers/AdminController.cs:420-432 | updating a batch keeps its course link, so every student's set of batch keys is unchanged |
| Students.CreateCourseThenGetCourses | Controllers/AdminController.cs:313-326 | a created course is listed by the course read under its new key, with the posted name and description and no teacher |
| Teachers.TeacherExists | Controllers/TeacherController.cs:160-163 | holds exactly when some teacher row has that TeacherId, that is, exactly when looking the key up yields a row |
| Teachers.TeacherCourses | Controllers/TeacherController.cs:44-50 | a teacher's course list has exactly one entry per course linked to the teacher, copying id, name and description, with no nested teacher |
| Teachers.GetTeacher | Controllers/TeacherController.cs:58-101 | NotFound on an absent id and on a teacher whose user does not resolve (the inner join of the required User finds no row); otherwise Ok with that user's fields and the teacher's course list; the top-level UserId stays 0 and SubjectSpecialization stays null |
| Teachers.GetTeachers | Controllers/TeacherController.cs:23-54 | always Ok; one DTO for exactly the teachers whose user resolves (a teacher with a missing user is left out by the inner join), each equal to what GetTeacher answers for it |
| Teachers.PostTeacher | Controllers/TeacherController.cs:105-112 | Created; the posted teacher is inserted under a fresh key with the posted UserId and SubjectSpecialization, the key then exists, and the body is the posted teacher with that key, every other field as posted |
| Teachers.PutTeacher | Controllers/TeacherController.cs:116-142 | a route id that differs from the body's TeacherId is BadRequest before any write; an id with no row ends in NotFound; otherwise NoContent with every scalar field of that row overwritten and nothing else changed |
| Teachers.DeleteTeacher | Controllers/TeacherController.cs:146-158 | no body; NotFound and no change on an absent id; otherwise the key set loses exactly that id, the teacher no longer exists, and every other teacher is unchanged |
| Teachers.TeacherExistsIffReadable | Controllers/TeacherController.cs:160-163 | a teacher that reads back exists; an existing teacher reads back exactly when its user resolves, so one with a missing user exists, reads NotFound and is absent from the list |
| Teachers.DanglingUserTeacherNotFound | Controllers/TeacherController.cs:60-66 | a teacher created with a UserId that names no user exists, but GET {id} answers NotFound for it and GET lists no teacher |
| Teachers.DeleteTeacherThenRead | Controllers/TeacherController.cs:146-158 | after a delete, both reading and deleting that teacher answer NotFound |
| Teachers.UpdateCourseKeepsTeacherCourses | Controllers/AdminController.cs:332-337 | renaming a course keeps it in its teacher's course list, now with the new name and description, and the list's key set is unchanged |
| Teachers.PutThenGet | Controllers/TeacherController.cs:116-142 | after a successful PUT, reading the teacher shows the user the body names |
| Teachers.CreateTeacherThenGet | Controllers/AdminController.cs:233-245 | a teacher the administrator creates exists and reads back at once with the posted user and the courses already linked to its key |
| Teachers.PostTeacherThenExists | Controllers/TeacherController.cs:105-112 | after a POST the new key exists and holds the posted UserId; reading it does not answer NotFound exactly when that UserId names a user |
| Teachers.UpdateTeacherMatchesPutTeacher | Controllers/TeacherController.cs:116-142 | when the route id equals the body's TeacherId, the teacher controller's PUT and the administrator's update give the same outcome and leave the same store |
| Teachers.CreateCourseKeepsTeacherCourses | Controllers/AdminController.cs:313-326 | a new course has no teacher, so every teacher's course list is unchanged |

## Left out

- Token signing: `JwtService.GenerateToken` is not part of this model. A token is `SignedFor(user)` and only records whom it was issued for.
- Role-gated endpoints (`GetAdminData`, `GetTeacherData`): the framework enforces the roles, and each endpoint returns a constant message.
- `GetUsers` in AuthController is not modelled. It returns the user table as it is.
- The list handlers whose projections run as SQL are not modelled: the administrator's `GetAllStudents`, `GetAllTeachers`, `GetAllCourses` and `GetAllBatches`, and the student controller's `GetAllStudents`. Their unguarded navigation dereferences get null semantics from SQL translation, not from C#.
- Eager loading (`Include`/`ThenInclude`) is not modelled. The model treats every navigation whose foreign key resolves as loaded. In the source, `GetStudentProfile` does not include `Batch`, and `GetStudentById` does not include `Batch.Course` or `Course.Teacher`. In practice those navigations can be null even when the key resolves.
- The Student and StudentCourse entities are not part of this model. Their `(int)` casts of `UserId` and `CourseId` in StudentController.cs (lines 85 and 104-105) indicate nullable keys, so the model takes those relationships as optional. A missing user or course then loads as null: `GetStudentProfile` throws (ServerError), and `GetStudentById` gives a null User or a null enrollment Course. If those keys were non-nullable, the relationships would be required and loaded by an inner join. `GetStudentProfile` would then answer NotFound for a student whose user is missing. Both reads would leave out an enrollment whose course is missing, where the model keeps it.
- Students.GetStudentProfile: its batch field is non-null whenever the BatchId resolves. This differs from the code as deployed, where the missing `Include(s => s.Batch)` can leave it null.
- The concurrency rethrow in `PutTeacher` is not modelled. That is the `throw` when `DbUpdateConcurrencyException` occurs and the teacher still exists.
- The 500 answer of `Register` when saving fails is not modelled. Store failures are outside the model.
- Database key assignment is a fresh `newId` argument. Foreign-key constraints and cascades are not modelled either, so creation and enrollment accept dangling ids, as the application code does. Deletes do not cascade.
- Concurrent registrations with the same email are not modelled. Handlers are atomic functions.
- Async execution, change tracking, `EntityState.Modified`, HTTP routing, status codes and JSON serialisation are not modelled.
- List results are maps keyed by id, so the row order the database returns is not modelled. Within one student, the order of enrollment rows is modelled as table order.
- The user entity's declaration (UserModule) is not part of this model. The fields are taken from the handlers' use of them. `Role` is an enumeration with Admin, Teacher and Student.
- Posted bodies are reduced to the scalar fields the handlers read. A `StudentDTO` keeps StudentId, UserId and BatchId. A `TeacherDTO` keeps TeacherId, UserId and SubjectSpecialization. A `CourseDTO` keeps CourseName, Description and TeacherId, and drops its CourseId and nested Teacher. A `BatchDTO` keeps BatchName, BatchTiming, BatchType and CourseId, and drops its BatchId and nested Course. The bodies echoed by `CreateStudent`, `UpdateStudentProfile`, `CreateTeacher`, `CreateCourse` and `CreateBatch` are these reduced requests.
- Teachers.PostTeacher: the bound `Teacher` entity is reduced to TeacherId, UserId and SubjectSpecialization, and the posted TeacherId is replaced by `newId`. A nested `User` or `Courses` graph in the body is not modelled. In the source, `Teachers.Add` would insert those rows too and set the teacher's UserId to the new user's key. The model inserts only the teacher row and changes no other table.
- Creation stores the posted ids without checking that they exist. Updates overwrite every field they assign, empty strings and a null BatchId included. The model does the same.
- Email lookups in login and registration run as SQL queries. Their string comparison follows the database collation, and SQL Server's default collation ignores case. `FirstOrDefaultAsync` has no `ORDER BY`, so which of several matching rows it returns is up to the database. The model compares emails exactly and takes the first match in table order. Its login results therefore hold as stated only under a case-sensitive collation and a table-order scan. Under distinct emails (`Auth.LoginDecidedByEmail`) the order does not matter.

=== FILE: admin.dfy ===
/**
  The administrator's CRUD handlers and the student report (AdminController).

  Every update and delete first looks the row up by key and answers NotFound,
  changing nothing, when it is absent. Updates overwrite the fields they assign
  with the posted values as they are (a null BatchId included); fields whose
  assignment is commented out in the source (a course's teacher, a batch's
  course) are never touched, and creation never sets them. Creation does not
  check that the referenced user or batch exists.
 */
module Admin {
  import opened Nullable
  import opened Store
  import opened Dto

  // ---------------------------------------------------------------------------
  // Students

  /** The row a posted StudentDTO overwrites or creates: UserId and BatchId as posted. */
  function StudentFrom(dto: StudentRequest): Student {
    Student(dto.userId, dto.batchId)
  }

  /** `Find(id)`, then `UserId` and `BatchId` overwritten from the body; the
      body's own StudentId is not read. Shared with the student's own profile update. */
  function OverwriteStudent(s: Store, id: int, dto: StudentRequest): (r: (Outcome, Store))
    ensures id !in s.students ==> r.0 == NotFound && r.1 == s
    ensures id in s.students ==>
              && r.0 == NoContent
              && r.1 == s.(students := r.1.students)
              && r.1.students.Keys == s.students.Keys
              && r.1.students[id].userId == dto.userId
              && r.1.students[id].batchId == dto.batchId
              && forall k :: k in s.students && k != id ==> r.1.students[k] == s.students[k]
  {
    if id !in s.students then (NotFound, s)
    else (NoContent, s.(students := s.students[id := StudentFrom(dto)]))
  }

  /** PUT students/{id}. */
  function UpdateStudent(s: Store, id: int, dto: StudentRequest): (r: Reply<()>)
    ensures r.body.None?
    ensures (r.outcome, r.store) == OverwriteStudent(s, id, dto)
    ensures r.outcome in {NotFound, NoContent}
  {
    var (o, s') := OverwriteStudent(s, id, dto);
    Reply(o, None, s')
  }

  /** POST students: a new row keyed `newId` from UserId and BatchId; the body is echoed. */
  function CreateStudent(s: Store, dto: StudentRequest, newId: int): (r: Reply<StudentRequest>)
    requires newId !in s.students
    ensures r.outcome == Created && r.body == Some(dto)
    ensures r.store == s.(students := r.store.students)
    ensures r.store.students.Keys == s.students.Keys + {newId}
    ensures r.store.students[newId].userId == dto.userId && r.store.students[newId].batchId == dto.batchId
    ensures forall k :: k in s.students ==> r.store.students[k] == s.students[k]
  {
    Reply(Created, Some(dto), s.(students := InsertKey(s.students, newId, StudentFrom(dto))))
  }

  /** DELETE students/{id}. */
  function DeleteStudent(s: Store, id: int): (r: Reply<()>)
    ensures r.body.None? && r.store == s.(students := r.store.students)
    ensures id !in s.students ==> r.outcome == NotFound && r.store == s
    ensures id in s.students ==> r.outcome == NoContent && r.store.students.Keys == s.students.Keys - {id}
    ensures forall k :: k in r.store.students ==> r.store.students[k] == s.students[k]
  {
    var (o, m) := DeleteKey(s.students, id);
    Reply(o, None, s.(students := m))
  }

  /** The course a join row points at, with its teacher's summary when the
      teacher link resolves (GetStudentById's enrollment projection). */
  function EnrolledCourseDto(s: Store, e: Enrollment): (d: Option<CourseDto>)
    ensures d.Some? <==> e.courseId in s.courses
    ensures d.Some? ==>
              var c := s.courses[e.courseId];
              && d.value.courseId == e.courseId
              && d.value.courseName == c.courseName && d.value.description == c.description
              && (d.value.teacher.Some? <==> TeacherAt(s, c.teacherId).Some?)
              && (d.value.teacher.Some? ==>
                    var t := s.teachers[c.teacherId.value];
                    && d.value.teacher.value.teacherId == c.teacherId.value
                    && d.value.teacher.value.userId == t.userId
                    && d.value.teacher.value.subjectSpecialization == Some(t.subjectSpecialization)
                    && d.value.teacher.value.user.None?
                    && d.value.teacher.value.courses.None?)
  {
    if e.courseId !in s.courses then None
    else
      var c := s.courses[e.courseId];
      var teacher :=
        match TeacherAt(s, c.teacherId)
        case None => None
        case Some(t) => Some(TeacherDto(c.teacherId.value, t.userId, Some(t.subjectSpecialization), None, None));
      Some(CourseDto(e.courseId, c.courseName, c.description, teacher))
  }

  /** GET students/{id}: every optional navigation is guarded, so the only
      failure is an absent student. */
  function GetStudentById(s: Store, id: int): (r: Reply<StudentDto>)
    ensures r.store == s
    ensures r.outcome == NotFound <==> id !in s.students
    ensures id !in s.students ==> r.body.None?
    ensures id in s.students ==>
              var st := s.students[id];
              var es := EnrollmentsOf(s.enrollments, id);
              && r.outcome == Ok && r.body.Some?
              && r.body.value.studentId == id
              && r.body.value.userId == st.userId
              && r.body.value.batchId == st.batchId
              && (r.body.value.user.Some? <==> UserById(s, st.userId).Some?)
              && (r.body.value.user.Some? ==> r.body.value.user.value == UserDtoOf(UserById(s, st.userId).value))
              && (r.body.value.batch.Some? <==> BatchAt(s, st.batchId).Some?)
              && (st.batchId.None? ==> r.body.value.batch.None?)
              && (r.body.value.batch.Some? ==>
                    var bd := r.body.value.batch.value;
                    var b := s.batches[st.batchId.value];
                    && bd.batchId == st.batchId.value
                    && bd.batchName == b.batchName
                    && bd.batchTiming == b.batchTiming
                    && bd.batchType == b.batchType
                    && (bd.course.Some? <==> CourseAt(s, b.courseId).Some?)
                    && (bd.course.Some? ==> bd.course.value == CourseSummary(b.courseId.value, s.courses[b.courseId.value])))
              && |r.body.value.enrollments| == |es|
              && forall i :: 0 <= i < |es| ==>
                   && r.body.value.enrollments[i].studentId == es[i].studentId
                   && r.body.value.enrollments[i].courseId == es[i].courseId
                   && r.body.value.enrollments[i].course == EnrolledCourseDto(s, es[i])
  {
    if id !in s.students then Reply(NotFound, None, s)
    else
      var st := s.students[id];
      var user := match UserById(s, st.userId) case None => None case Some(u) => Some(UserDtoOf(u));
      var batch :=
        match BatchAt(s, st.batchId)
        case None => None
        case Some(b) =>
          var course :=
            match CourseAt(s, b.courseId)
            case None => None
            case Some(c) => Some(CourseSummary(b.courseId.value, c));
          Some(BatchDto(st.batchId.value, b.batchName, b.batchTiming, b.batchType, course));
      var es := EnrollmentsOf(s.enrollments, id);
      Reply(Ok, Some(StudentDto(id, st.userId, st.batchId, user, batch, EnrollmentRows(s, es))), s)
  }

  /** GetStudentById's enrollment projection: one entry per join row, in order,
      each with the course it points at. */
  function EnrollmentRows(s: Store, es: seq<Enrollment>): (r: seq<EnrollmentDto>)
    ensures |r| == |es|
    ensures forall i :: 0 <= i < |es| ==>
              r[i] == EnrollmentDto(es[i].studentId, es[i].courseId, EnrolledCourseDto(s, es[i]))
  {
    seq(|es|, i requires 0 <= i < |es| => EnrollmentDto(es[i].studentId, es[i].courseId, EnrolledCourseDto(s, es[i])))
  }

  // ---------------------------------------------------------------------------
  // Teachers

  /** The row a posted TeacherDTO overwrites or creates. */
  function TeacherFrom(dto: TeacherRequest): Teacher {
    Teacher(dto.userId, dto.subjectSpecialization)
  }

  /** POST teachers: a new row keyed `newId`; the body's TeacherId is not read. */
  function CreateTeacher(s: Store, dto: TeacherRequest, newId: int): (r: Reply<TeacherRequest>)
    requires newId !in s.teachers
    ensures r.outcome == Created && r.body == Some(dto)
    ensures r.store == s.(teachers := r.store.teachers)
    ensures r.store.teachers.Keys == s.teachers.Keys + {newId}
    ensures r.store.teachers[newId].userId == dto.userId
    ensures r.store.teachers[newId].subjectSpecialization == dto.subjectSpecialization
    ensures forall k :: k in s.teachers ==> r.store.teachers[k] == s.teachers[k]
  {
    Reply(Created, Some(dto), s.(teachers := InsertKey(s.teachers, newId, TeacherFrom(dto))))
  }

  /** PUT teachers/{id}: UserId and SubjectSpecialization overwritten. */
  function UpdateTeacher(s: Store, id: int, dto: TeacherRequest): (r: Reply<()>)
    ensures r.body.None? && r.store == s.(teachers := r.store.teachers)
    ensures id !in s.teachers ==> r.outcome == NotFound && r.store == s
    ensures id in s.teachers ==>
              && r.outcome == NoContent
              && r.store.teachers.Keys == s.teachers.Keys
              && r.store.teachers[id].userId == dto.userId
              && r.store.teachers[id].subjectSpecialization == dto.subjectSpecialization
              && forall k :: k in s.teachers && k != id ==> r.store.teachers[k] == s.teachers[k]
  {
    if id !in s.teachers then Reply(NotFound, None, s)
    else Reply(NoContent, None, s.(teachers := s.teachers[id := TeacherFrom(dto)]))
  }

  /** DELETE teachers/{id} (the teacher controller's DELETE is the same handler). */
  function DeleteTeacher(s: Store, id: int): (r: Reply<()>)
    ensures r.body.None? && r.store == s.(teachers := r.store.teachers)
    ensures id !in s.teachers ==> r.outcome == NotFound && r.store == s
    ensures id in s.teachers ==> r.outcome == NoContent && r.store.teachers.Keys == s.teachers.Keys - {id}
    ensures forall k :: k in r.store.teachers ==> r.store.teachers[k] == s.teachers[k]
  {
    var (o, m) := DeleteKey(s.teachers, id);
    Reply(o, None, s.(teachers := m))
  }

  // ---------------------------------------------------------------------------
  // Courses

  /** POST courses: name and description as posted, never a teacher. */
  function CreateCourse(s: Store, dto: CourseRequest, newId: int): (r: Reply<CourseRequest>)
    requires newId !in s.courses
    ensures r.outcome == Created && r.body == Some(dto)
    ensures r.store == s.(courses := r.store.courses)
    ensures r.store.courses.Keys == s.courses.Keys + {newId}
    ensures r.store.courses[newId].courseName == dto.courseName
    ensures r.store.courses[newId].description == dto.description
    ensures r.store.courses[newId].teacherId.None?
    ensures forall k :: k in s.courses ==> r.store.courses[k] == s.courses[k]
  {
    Reply(Created, Some(dto), s.(courses := InsertKey(s.courses, newId, Course(dto.courseName, dto.description, None))))
  }

  /** PUT courses/{id}: only name and description change; the teacher link stays. */
  function UpdateCourse(s: Store, id: int, dto: CourseRequest): (r: Reply<()>)
    ensures r.body.None? && r.store == s.(courses := r.store.courses)
    ensures id !in s.courses ==> r.outcome == NotFound && r.store == s
    ensures id in s.courses ==>
              && r.outcome == NoContent
              && r.store.courses.Keys == s.courses.Keys
              && r.store.courses[id].courseName == dto.courseName
              && r.store.courses[id].description == dto.description
              && r.store.courses[id].teacherId == s.courses[id].teacherId
              && forall k :: k in s.courses && k != id ==> r.store.courses[k] == s.courses[k]
  {
    if id !in s.courses then Reply(NotFound, None, s)
    else
      var c := s.courses[id];
      Reply(NoContent, None, s.(courses := s.courses[id := c.(courseName := dto.courseName, description := dto.description)]))
  }

  /** DELETE courses/{id}. */
  function DeleteCourse(s: Store, id: int): (r: Reply<()>)
    ensures r.body.None? && r.store == s.(courses := r.store.courses)
    ensures id !in s.courses ==> r.outcome == NotFound && r.store == s
    ensures id in s.courses ==> r.outcome == NoContent && r.store.courses.Keys == s.courses.Keys - {id}
    ensures forall k :: k in r.store.courses ==> r.store.courses[k] == s.courses[k]
  {
    var (o, m) := DeleteKey(s.courses, id);
    Reply(o, None, s.(courses := m))
  }

  // ---------------------------------------------------------------------------
  // Batches

  /** POST batches: name, timing and type as posted, never a course. */
  function CreateBatch(s: Store, dto: BatchRequest, newId: int): (r: Reply<BatchRequest>)
    requires newId !in s.batches
    ensures r.outcome == Created && r.body == Some(dto)
    ensures r.store == s.(batches := r.store.batches)
    ensures r.store.batches.Keys == s.batches.Keys + {newId}
    ensures r.store.batches[newId].batchName == dto.batchName
    ensures r.store.batches[newId].batchTiming == dto.batchTiming
    ensures r.store.batches[newId].batchType == dto.batchType
    ensures r.store.batches[newId].courseId.None?
    ensures forall k :: k in s.batches ==> r.store.batches[k] == s.batches[k]
  {
    Reply(Created, Some(dto),
      s.(batches := InsertKey(s.batches, newId, Batch(dto.batchName, dto.batchTiming, dto.batchType, None))))
  }

  /** PUT batches/{id}: only name, timing and type change; the course link stays. */
  function UpdateBatch(s: Store, id: int, dto: BatchRequest): (r: Reply<()>)
    ensures r.body.None? && r.store == s.(batches := r.store.batches)
    ensures id !in s.batches ==> r.outcome == NotFound && r.store == s
    ensures id in s.batches ==>
              && r.outcome == NoContent
              && r.store.batches.Keys == s.batches.Keys
              && r.store.batches[id].batchName == dto.batchName
              && r.store.batches[id].batchTiming == dto.batchTiming
              && r.store.batches[id].batchType == dto.batchType
              && r.store.batches[id].courseId == s.batches[id].courseId
              && forall k :: k in s.batches && k != id ==> r.store.batches[k] == s.batches[k]
  {
    if id !in s.batches then Reply(NotFound, None, s)
    else
      var b := s.batches[id];
      Reply(NoContent, None,
        s.(batches := s.batches[id := b.(batchName := dto.batchName, batchTiming := dto.batchTiming, batchType := dto.batchType)]))
  }

  /** DELETE batches/{id}. */
  function DeleteBatch(s: Store, id: int): (r: Reply<()>)
    ensures r.body.None? && r.store == s.(batches := r.store.batches)
    ensures id !in s.batches ==> r.outcome == NotFound && r.store == s
    ensures id in s.batches ==> r.outcome == NoContent && r.store.batches.Keys == s.batches.Keys - {id}
    ensures forall k :: k in r.store.batches ==> r.store.batches[k] == s.batches[k]
  {
    var (o, m) := DeleteKey(s.batches, id);
    Reply(o, None, s.(batches := m))
  }

  // ---------------------------------------------------------------------------
  // Reporting

  /** GET reports/students: one row per student, with the number of join rows
      naming that student. */
  function GetStudentReports(s: Store): (r: Reply<map<int, ReportRow>>)
    ensures r.outcome == Ok && r.store == s && r.body.Some?
    ensures r.body.value.Keys == s.students.Keys
    ensures forall id :: id in r.body.value ==>
              && r.body.value[id].studentId == id
              && (r.body.value[id].userName.Some? <==> UserById(s, s.students[id].userId).Some?)
              && (r.body.value[id].userName.Some? ==>
                    r.body.value[id].userName.value == UserById(s, s.students[id].userId).value.name)
              && (r.body.value[id].batchName.Some? <==> BatchAt(s, s.students[id].batchId).Some?)
              && (r.body.value[id].batchName.Some? ==>
                    r.body.value[id].batchName.value == s.batches[s.students[id].batchId.value].batchName)
              && r.body.value[id].enrolledCourses == |EnrollmentsOf(s.enrollments, id)|
  {
    var rows := map id | id in s.students :: ReportRowOf(s, id);
    Reply(Ok, Some(rows), s)
  }

  /** The report row of one student: its id, its user's name and its batch's
      name (each null when the link does not resolve), and its count. */
  function ReportRowOf(s: Store, id: int): (row: ReportRow)
    requires id in s.students
    ensures row.studentId == id
    ensures row.userName.Some? <==> UserById(s, s.students[id].userId).Some?
    ensures row.userName.Some? ==> row.userName.value == UserById(s, s.students[id].userId).value.name
    ensures row.batchName.Some? <==> BatchAt(s, s.students[id].batchId).Some?
    ensures row.batchName.Some? ==> row.batchName.value == s.batches[s.students[id].batchId.value].batchName
    ensures row.enrolledCourses == |EnrollmentsOf(s.enrollments, id)|
  {
    var st := s.students[id];
    ReportRow(
      id,
      match UserById(s, st.userId) case None => None case Some(u) => Some(u.name),
      match BatchAt(s, st.batchId) case None => None case Some(b) => Some(b.batchName),
      EnrolledCount(s.enrollments, id))
  }

  // ---------------------------------------------------------------------------
  // Properties relating several calls

  /** After an update, reading the student back shows the posted UserId and
      BatchId; a null BatchId reads back as no batch. */
  lemma UpdateStudentThenGet(s: Store, id: int, dto: StudentRequest)
    requires id in s.students
    ensures var r := GetStudentById(UpdateStudent(s, id, dto).store, id);
            && r.outcome == Ok
            && r.body.value.userId == dto.userId
            && r.body.value.batchId == dto.batchId
            && (dto.batchId.None? ==> r.body.value.batch.None?)
  {
  }

  /** The enrollment projection reads only the course and teacher tables. */
  lemma EnrollmentRowsFrame(s: Store, s': Store, es: seq<Enrollment>)
    requires s'.courses == s.courses && s'.teachers == s.teachers
    ensures EnrollmentRows(s', es) == EnrollmentRows(s, es)
  {
  }

  /** The projection of an appended row comes last. */
  lemma EnrollmentRowsAppend(s: Store, es: seq<Enrollment>, e: Enrollment)
    ensures EnrollmentRows(s, es + [e]) == EnrollmentRows(s, es) + EnrollmentRows(s, [e])
  {
  }

  /** A created student reads back at once with the posted UserId and BatchId. */
  lemma CreateStudentThenGet(s: Store, dto: StudentRequest, newId: int)
    requires newId !in s.students
    ensures var r := GetStudentById(CreateStudent(s, dto, newId).store, newId);
            && r.outcome == Ok
            && r.body.value.studentId == newId
            && r.body.value.userId == dto.userId
            && r.body.value.batchId == dto.batchId
            && (r.body.value.user.Some? <==> UserById(s, dto.userId).Some?)
            && (r.body.value.batch.Some? <==> BatchAt(s, dto.batchId).Some?)
  {
  }

  /** Updating a student twice with the same body is the same as once. */
  lemma UpdateStudentIdempotent(s: Store, id: int, dto: StudentRequest)
    ensures var s1 := UpdateStudent(s, id, dto).store;
            UpdateStudent(s1, id, dto).store == s1
  {
  }

  /** The report's count for a student is the length of the enrollment list
      that GetStudentById answers for it, duplicates included. */
  lemma ReportMatchesEnrollmentList(s: Store, id: int)
    requires id in s.students
    ensures GetStudentReports(s).body.value[id].enrolledCourses
         == |GetStudentById(s, id).body.value.enrollments|
  {
  }
}

=== FILE: auth.dfy ===
/**
  Login and registration (AuthController).

  Both login handlers run the same ordered check: a null or empty email or
  password is a bad request before any lookup; then a user whose email matches
  is looked up, the model taking the first match in table order (NotFound if
  there is none); then its stored password is compared with the supplied one
  as plain text (Unauthorized on mismatch).
  Registration checks for empty fields, then for an existing user with the same
  email, and only then inserts.
 */
module Auth {
  import opened Nullable
  import opened Store
  import opened Dto

  /** `string.IsNullOrEmpty`. */
  predicate IsNullOrEmpty(s: Option<string>) {
    s.None? || s.value == ""
  }

  /** `Users.Any(u => u.Email == e)`. */
  predicate EmailTaken(users: seq<User>, e: string) {
    exists i | 0 <= i < |users| :: users[i].email == Some(e)
  }

  /** The session token `JwtService.GenerateToken(user)` returns. The signing
      code is not part of this model, so a token only records whom it was issued for. */
  datatype Token = SignedFor(user: User)

  /** The verdict of the shared credential check: the matched user, or the
      outcome the handler answers with. */
  datatype Verdict = Accepted(user: User) | Rejected(outcome: Outcome)

  /** The ordered credential check shared by `Authenticate` and `AuthenticateUser`. */
  function CheckCredentials(users: seq<User>, email: Option<string>, password: Option<string>): (v: Verdict)
    ensures IsNullOrEmpty(email) || IsNullOrEmpty(password) ==> v == Rejected(BadRequest)
    ensures !IsNullOrEmpty(email) && !IsNullOrEmpty(password) && !EmailTaken(users, email.value)
            ==> v == Rejected(NotFound)
    ensures !IsNullOrEmpty(email) && !IsNullOrEmpty(password)
            ==> forall i :: IsFirstMatch(users, ByEmail(email.value), i) ==>
                  && (users[i].password == password ==> v == Accepted(users[i]))
                  && (users[i].password != password ==> v == Rejected(Unauthorized))
    ensures v.Accepted? ==> v.user in users && v.user.email == email && v.user.password == password
    ensures v.Rejected? ==> v.outcome in {BadRequest, NotFound, Unauthorized}
  {
    if IsNullOrEmpty(email) || IsNullOrEmpty(password) then Rejected(BadRequest)
    else
      match FirstMatch(users, ByEmail(email.value))
      case None => Rejected(NotFound)
      case Some(u) =>
        FirstMatchIsUnique(users, ByEmail(email.value));
        if u.password != password then Rejected(Unauthorized) else Accepted(u)
  }

  /** POST login: a token for the matched user, or the rejection; the store is never changed. */
  function Authenticate(s: Store, request: Option<LoginRequest>): (r: Reply<Token>)
    ensures r.store == s
    ensures request.None? ==> r.outcome == BadRequest && r.body.None?
    ensures request.Some? ==>
              var v := CheckCredentials(s.users, request.value.email, request.value.password);
              && (v.Accepted? ==> r.outcome == Ok && r.body == Some(SignedFor(v.user)))
              && (v.Rejected? ==> r.outcome == v.outcome && r.body.None?)
    ensures r.outcome == Ok ==> r.body.Some? && r.body.value.user in s.users
  {
    if request.None? then Reply(BadRequest, None, s)
    else
      match CheckCredentials(s.users, request.value.email, request.value.password)
      case Rejected(o) => Reply(o, None, s)
      case Accepted(u) => Reply(Ok, Some(SignedFor(u)), s)
  }

  /** GET by query: the matched user's public fields, or the rejection; the
      store is never changed and the answer carries no password. */
  function AuthenticateUser(s: Store, email: Option<string>, password: Option<string>): (r: Reply<UserDto>)
    ensures r.store == s
    ensures var v := CheckCredentials(s.users, email, password);
            && (v.Rejected? ==> r.outcome == v.outcome && r.body.None?)
            && (v.Accepted? ==>
                  && r.outcome == Ok && r.body.Some?
                  && r.body.value.userId == v.user.userId
                  && r.body.value.name == v.user.name
                  && r.body.value.email == v.user.email
                  && r.body.value.role == v.user.role
                  && r.body.value.contactDetails == v.user.contactDetails)
  {
    match CheckCredentials(s.users, email, password)
    case Rejected(o) => Reply(o, None, s)
    case Accepted(u) => Reply(Ok, Some(UserDtoOf(u)), s)
  }

  /** A registration body with a non-null, non-empty email and password. */
  predicate HasCredentials(user: Option<User>) {
    user.Some? && !IsNullOrEmpty(user.value.email) && !IsNullOrEmpty(user.value.password)
  }

  /** POST register. `newId` is the key the database assigns to the new row. */
  function Register(s: Store, user: Option<User>, newId: int): (r: Reply<()>)
    requires UserById(s, newId).None?
    ensures r.body.None?
    ensures !HasCredentials(user) ==> r.outcome == BadRequest && r.store == s
    ensures HasCredentials(user) && EmailTaken(s.users, user.value.email.value)
            ==> r.outcome == Conflict && r.store == s
    ensures r.outcome == Created <==> HasCredentials(user) && !EmailTaken(s.users, user.value.email.value)
    ensures r.outcome == Created ==>
              && r.store == s.(users := r.store.users)
              && |r.store.users| == |s.users| + 1
              && r.store.users[..|s.users|] == s.users
              && r.store.users[|s.users|] == user.value.(userId := newId)
              && EmailTaken(r.store.users, user.value.email.value)
  {
    if !HasCredentials(user) then Reply(BadRequest, None, s)
    else if EmailTaken(s.users, user.value.email.value) then Reply(Conflict, None, s)
    else
      var users' := s.users + [user.value.(userId := newId)];
      assert users'[|s.users|].email == user.value.email;
      Reply(Created, None, s.(users := users'))
  }

  // ---------------------------------------------------------------------------
  // Properties relating several calls

  /** Registration keeps the emails of the user table pairwise distinct. */
  lemma RegisterKeepsEmailsDistinct(s: Store, user: Option<User>, newId: int)
    requires UserById(s, newId).None?
    requires DistinctEmails(s.users)
    ensures DistinctEmails(Register(s, user, newId).store.users)
  {
  }

  /** Under distinct emails, login is decided by the one user with that email:
      Ok with a token for that user exactly when its password matches. */
  lemma LoginDecidedByEmail(s: Store, e: string, p: string, i: int)
    requires DistinctEmails(s.users)
    requires 0 <= i < |s.users| && s.users[i].email == Some(e)
    requires e != "" && p != ""
    ensures var r := Authenticate(s, Some(LoginRequest(Some(e), Some(p))));
            && (s.users[i].password == Some(p) ==> r.outcome == Ok && r.body == Some(SignedFor(s.users[i])))
            && (s.users[i].password != Some(p) ==> r.outcome == Unauthorized)
  {
  }

  /** A freshly registered user can log in with the email and password it
      registered with, and the token is issued for the new row (so its role is
      the registered role). */
  lemma RegisterThenLogin(s: Store, user: User, newId: int)
    requires UserById(s, newId).None?
    requires Register(s, Some(user), newId).outcome == Created
    ensures var s' := Register(s, Some(user), newId).store;
            var r := Authenticate(s', Some(LoginRequest(user.email, user.password)));
            r.outcome == Ok && r.body == Some(SignedFor(user.(userId := newId)))
            && r.body.value.user.role == user.role
  {
  }

  /** Registering a second user with an email already registered is a
      Conflict, and the first registration stays the only row with that email. */
  lemma RegisterSameEmailTwice(s: Store, u1: User, id1: int, u2: User, id2: int)
    requires UserById(s, id1).None?
    requires Register(s, Some(u1), id1).outcome == Created
    requires UserById(Register(s, Some(u1), id1).store, id2).None?
    requires u2.email == u1.email && HasCredentials(Some(u2))
    ensures var s1 := Register(s, Some(u1), id1).store;
            var r := Register(s1, Some(u2), id2);
            && r.outcome == Conflict && r.store == s1
            && forall j :: 0 <= j < |r.store.users| && r.store.users[j].email == u1.email ==> j == |s.users|
  {
  }

  /** The two login handlers agree: the same outcome for the same credentials,
      and on success the token and the user answer are for the same user. */
  lemma AuthenticateAgreesWithAuthenticateUser(s: Store, email: Option<string>, password: Option<string>)
    ensures var t := Authenticate(s, Some(LoginRequest(email, password)));
            var u := AuthenticateUser(s, email, password);
            && t.outcome == u.outcome
            && (t.outcome == Ok ==> t.body.value.user.userId == u.body.value.userId
                                    && UserDtoOf(t.body.value.user) == u.body.value)
  {
  }
}

=== FILE: dto.dfy ===
/**
  Transfer objects: the flat, nullable-field shapes the handlers answer with,
  and the request bodies they read.

  One response type per DTO class; a field a handler does not set stays at its
  C# default (null for references, 0 for `int`). List-valued fields that come
  from a keyed table are maps from the row's key to its DTO, because the order
  in which the database returns rows is not part of the model.
 */
module Dto {
  import opened Nullable
  import opened Store

  datatype UserDto = UserDto(
    userId: int,
    name: string,
    email: Option<string>,
    role: Role,
    contactDetails: string)

  datatype TeacherDto = TeacherDto(
    teacherId: int,
    userId: int,
    subjectSpecialization: Option<string>,
    user: Option<UserDto>,
    courses: Option<map<int, CourseDto>>)

  datatype CourseDto = CourseDto(
    courseId: int,
    courseName: string,
    description: string,
    teacher: Option<TeacherDto>)

  datatype BatchDto = BatchDto(
    batchId: int,
    batchName: string,
    batchTiming: string,
    batchType: string,
    course: Option<CourseDto>)

  datatype EnrollmentDto = EnrollmentDto(studentId: int, courseId: int, course: Option<CourseDto>)

  datatype StudentDto = StudentDto(
    studentId: int,
    userId: int,
    batchId: Option<int>,
    user: Option<UserDto>,
    batch: Option<BatchDto>,
    enrollments: seq<EnrollmentDto>)

  /** One row of the student report. The user and batch names are nullable
      because the report reads them through navigations. */
  datatype ReportRow = ReportRow(
    studentId: int,
    userName: Option<string>,
    batchName: Option<string>,
    enrolledCourses: nat)

  // ---------------------------------------------------------------------------
  // Request bodies: the fields of the posted DTO the handlers can read

  /** A posted StudentDTO. `studentId` is carried but never read: the route id
      or the database decides the key. */
  datatype StudentRequest = StudentRequest(studentId: int, userId: int, batchId: Option<int>)

  /** A posted TeacherDTO, or the Teacher entity that PutTeacher binds. */
  datatype TeacherRequest = TeacherRequest(teacherId: int, userId: int, subjectSpecialization: string)

  /** A posted CourseDTO; its teacher link is ignored by every handler. */
  datatype CourseRequest = CourseRequest(courseName: string, description: string, teacherId: Option<int>)

  /** A posted BatchDTO; its course link is ignored by every handler. */
  datatype BatchRequest = BatchRequest(batchName: string, batchTiming: string, batchType: string, courseId: Option<int>)

  datatype EnrollmentRequest = EnrollmentRequest(studentId: int, courseId: int)

  datatype LoginRequest = LoginRequest(email: Option<string>, password: Option<string>)

  // ---------------------------------------------------------------------------
  // Projections shared by several handlers

  /** `new UserDTO { ... }` from a user row: every public field, never the password. */
  function UserDtoOf(u: User): UserDto {
    UserDto(u.userId, u.name, u.email, u.role, u.contactDetails)
  }

  /** `new CourseDTO { CourseId, CourseName, Description }` with no teacher. */
  function CourseSummary(id: int, c: Course): CourseDto {
    CourseDto(id, c.courseName, c.description, None)
  }

  /** `new BatchDTO { BatchId, BatchName, BatchTiming, BatchType }` with no course. */
  function BatchSummary(id: int, b: Batch): BatchDto {
    BatchDto(id, b.batchName, b.batchTiming, b.batchType, None)
  }
}

=== FILE: nullable.dfy ===
/** A C# nullable reference or `int?`: either absent (null) or present. */
module Nullable {

  datatype Option<+T> = None | Some(value: T)

}

=== FILE: store.dfy ===
/**
  The relational store the controllers run against, seen as plain values.

  Each keyed table is a finite map from its integer primary key to an immutable
  record that does not repeat the key. Users are a sequence, because the model
  takes the first match in table order for a login lookup, and enrollments (the
  StudentCourses join table) are a sequence because the source puts no
  uniqueness constraint on them: the same (student, course) pair may occur twice.
 */
module Store {
  import opened Nullable

  datatype Role = AdminRole | TeacherRole | StudentRole

  /** A user row. Email and password are nullable strings; the rest is only copied. */
  datatype User = User(
    userId: int,
    name: string,
    email: Option<string>,
    password: Option<string>,
    role: Role,
    contactDetails: string)

  /** A student row, keyed by StudentId; BatchId is nullable. */
  datatype Student = Student(userId: int, batchId: Option<int>)

  /** A teacher row, keyed by TeacherId. */
  datatype Teacher = Teacher(userId: int, subjectSpecialization: string)

  /** A course row, keyed by CourseId; the teacher link is nullable. */
  datatype Course = Course(courseName: string, description: string, teacherId: Option<int>)

  /** A batch row, keyed by BatchId; the course link is nullable. */
  datatype Batch = Batch(batchName: string, batchTiming: string, batchType: string, courseId: Option<int>)

  /** A row of the StudentCourses join table. */
  datatype Enrollment = Enrollment(studentId: int, courseId: int)

  datatype Store = Store(
    users: seq<User>,
    students: map<int, Student>,
    teachers: map<int, Teacher>,
    courses: map<int, Course>,
    batches: map<int, Batch>,
    enrollments: seq<Enrollment>)

  /** The abstract result of a handler, in place of an HTTP status code.
      ServerError stands for an unhandled exception (a null dereference). */
  datatype Outcome =
    | Ok
    | Created
    | NoContent
    | BadRequest
    | NotFound
    | Unauthorized
    | Conflict
    | ServerError

  /** What a handler answers: the outcome, the response body if any, and the
      store after the handler ran. */
  datatype Reply<+T> = Reply(outcome: Outcome, body: Option<T>, store: Store)

  // ---------------------------------------------------------------------------
  // Looking users up

  /** The two ways the controllers look a user up: by email (login) and by
      primary key (the User navigation of a student or teacher). */
  datatype UserKey = ByEmail(email: string) | ById(id: int)

  predicate Matches(u: User, key: UserKey) {
    match key
    case ByEmail(e) => u.email == Some(e)
    case ById(id) => u.userId == id
  }

  /** `i` is the first position of `users` that matches `key`. */
  ghost predicate IsFirstMatch(users: seq<User>, key: UserKey, i: int) {
    && 0 <= i < |users|
    && Matches(users[i], key)
    && forall j :: 0 <= j < i ==> !Matches(users[j], key)
  }

  /** A `FirstOrDefault(u => ...)` lookup over the users from position `from`
      on, taking the first match in table order: the index of the first match,
      or None when no user matches. */
  function FirstMatchFrom(users: seq<User>, key: UserKey, from: nat): (r: Option<nat>)
    requires from <= |users|
    ensures r.Some? ==> from <= r.value < |users| && Matches(users[r.value], key)
    ensures r.Some? ==> forall j :: from <= j < r.value ==> !Matches(users[j], key)
    ensures r.None? ==> forall j :: from <= j < |users| ==> !Matches(users[j], key)
    decreases |users| - from
  {
    if from == |users| then None
    else if Matches(users[from], key) then Some(from)
    else FirstMatchFrom(users, key, from + 1)
  }

  /** The first user matching `key`, or None: exactly the element at the first
      matching position, and None exactly when no user matches. */
  function FirstMatch(users: seq<User>, key: UserKey): (r: Option<User>)
    ensures r.None? <==> forall j :: 0 <= j < |users| ==> !Matches(users[j], key)
    ensures r.Some? ==> exists i :: IsFirstMatch(users, key, i) && r.value == users[i]
  {
    match FirstMatchFrom(users, key, 0)
    case None => None
    case Some(i) =>
      assert IsFirstMatch(users, key, i);
      Some(users[i])
  }

  /** Two first matches are the same position. */
  lemma FirstMatchIsUnique(users: seq<User>, key: UserKey)
    ensures forall i, k :: IsFirstMatch(users, key, i) && IsFirstMatch(users, key, k) ==> i == k
  {
  }

  /** The user a `UserId` foreign key resolves to, if any. */
  function UserById(s: Store, userId: int): (r: Option<User>)
    ensures r.Some? ==> r.value.userId == userId && r.value in s.users
    ensures r.None? <==> forall j :: 0 <= j < |s.users| ==> s.users[j].userId != userId
  {
    FirstMatch(s.users, ById(userId))
  }

  /** There is at most one user row per email (nulls excepted). */
  ghost predicate DistinctEmails(users: seq<User>) {
    forall i, j :: 0 <= i < j < |users| && users[i].email.Some? ==> users[i].email != users[j].email
  }

  /** Under distinct emails, the first user with an email is the only one, so a
      login lookup is decided by the email alone. */
  lemma FirstMatchUnique(users: seq<User>, e: string, i: int)
    requires DistinctEmails(users)
    requires 0 <= i < |users| && users[i].email == Some(e)
    ensures FirstMatch(users, ByEmail(e)) == Some(users[i])
  {
  }

  // ---------------------------------------------------------------------------
  // Resolving nullable foreign keys (a navigation is present iff its key resolves)

  function CourseAt(s: Store, id: Option<int>): (r: Option<Course>)
    ensures r.Some? <==> id.Some? && id.value in s.courses
    ensures r.Some? ==> r.value == s.courses[id.value]
  {
    if id.Some? && id.value in s.courses then Some(s.courses[id.value]) else None
  }

  function BatchAt(s: Store, id: Option<int>): (r: Option<Batch>)
    ensures r.Some? <==> id.Some? && id.value in s.batches
    ensures r.Some? ==> r.value == s.batches[id.value]
  {
    if id.Some? && id.value in s.batches then Some(s.batches[id.value]) else None
  }

  function TeacherAt(s: Store, id: Option<int>): (r: Option<Teacher>)
    ensures r.Some? <==> id.Some? && id.value in s.teachers
    ensures r.Some? ==> r.value == s.teachers[id.value]
  {
    if id.Some? && id.value in s.teachers then Some(s.teachers[id.value]) else None
  }

  // ---------------------------------------------------------------------------
  // Enrollments of one student

  /** The `Enrollments` collection of a student: its join rows, in table order,
      each as often as it occurs in the table. */
  function EnrollmentsOf(es: seq<Enrollment>, studentId: int): (r: seq<Enrollment>)
    ensures forall e :: e in r <==> e in es && e.studentId == studentId
    ensures forall e :: multiset(r)[e] == (if e.studentId == studentId then multiset(es)[e] else 0)
    ensures |r| <= |es|
  {
    if |es| == 0 then []
    else
      assert es == [es[0]] + es[1..];
      if es[0].studentId == studentId then [es[0]] + EnrollmentsOf(es[1..], studentId)
      else EnrollmentsOf(es[1..], studentId)
  }

  /** A row appended to the table lands at the end of its student's collection
      and leaves every other student's collection as it was. */
  lemma {:induction false} EnrollmentsOfAppend(es: seq<Enrollment>, e: Enrollment, studentId: int)
    ensures EnrollmentsOf(es + [e], studentId)
         == EnrollmentsOf(es, studentId) + (if e.studentId == studentId then [e] else [])
  {
    if |es| == 0 {
      assert es + [e] == [e];
    } else {
      assert (es + [e])[1..] == es[1..] + [e];
      EnrollmentsOfAppend(es[1..], e, studentId);
    }
  }

  /** `StudentCourses.Count(sc => sc.StudentId == studentId)`: the length of the
      student's enrollment collection, so duplicate rows count as often as they
      occur. */
  function EnrolledCount(es: seq<Enrollment>, studentId: int): (r: nat)
    ensures r == |EnrollmentsOf(es, studentId)|
    ensures r <= |es|
  {
    if |es| == 0 then 0
    else (if es[0].studentId == studentId then 1 else 0) + EnrolledCount(es[1..], studentId)
  }

  /** A student's count is zero exactly when no join row names that student. */
  lemma EnrolledCountZero(es: seq<Enrollment>, studentId: int)
    ensures EnrolledCount(es, studentId) == 0 <==> forall i :: 0 <= i < |es| ==> es[i].studentId != studentId
  {
  }

  /** Appending a join row adds one to its student's count and nothing to any other. */
  lemma EnrolledCountAppend(es: seq<Enrollment>, e: Enrollment, studentId: int)
    ensures EnrolledCount(es + [e], studentId)
         == EnrolledCount(es, studentId) + (if e.studentId == studentId then 1 else 0)
  {
    EnrollmentsOfAppend(es, e, studentId);
  }

  // ---------------------------------------------------------------------------
  // Keyed tables

  /** `Find(id)`, then `Remove` and save: NotFound and no change when the key is
      absent; otherwise exactly that key is gone and every other row is kept. */
  function DeleteKey<V>(m: map<int, V>, id: int): (r: (Outcome, map<int, V>))
    ensures id !in m ==> r.0 == NotFound && r.1 == m
    ensures id in m ==> r.0 == NoContent && r.1.Keys == m.Keys - {id}
    ensures forall k :: k in r.1 ==> k in m && r.1[k] == m[k]
  {
    if id !in m then (NotFound, m) else (NoContent, m - {id})
  }

  /** Deleting twice: the second delete of the same key always reports NotFound
      and changes nothing. */
  lemma DeleteKeyTwice<V>(m: map<int, V>, id: int)
    ensures DeleteKey(DeleteKey(m, id).1, id) == (NotFound, DeleteKey(m, id).1)
  {
  }

  /** `Add` of a new row whose key the database picks: `newId` must be fresh. */
  function InsertKey<V>(m: map<int, V>, newId: int, v: V): (r: map<int, V>)
    requires newId !in m
    ensures r.Keys == m.Keys + {newId} && r[newId] == v
    ensures forall k :: k in m ==> r[k] == m[k]
    ensures |r| == |m| + 1
  {
    m[newId := v]
  }
}

=== FILE: students.dfy ===
/**
  The student-facing handlers (StudentController).

  Unlike the administrator's GetStudentById, the profile read dereferences the
  student's User and each enrollment's Course without a null check. Those
  relationships are taken as optional (nullable keys, loaded by an outer
  join), so a dangling UserId or CourseId ends in an unhandled exception
  (ServerError).
  Enrolling appends a join row without checking for an equal row already there.
 */
module Students {
  import opened Nullable
  import opened Store
  import opened Dto
  import Admin

  /** No enrollment of the student points at a missing course. */
  predicate EnrolledCoursesResolve(s: Store, es: seq<Enrollment>) {
    forall i | 0 <= i < |es| :: es[i].courseId in s.courses
  }

  /** GET {id}: the profile, with the batch summary when the student has one. */
  function GetStudentProfile(s: Store, id: int): (r: Reply<StudentDto>)
    ensures r.store == s
    ensures id !in s.students ==> r.outcome == NotFound && r.body.None?
    ensures id in s.students ==>
              var st := s.students[id];
              var es := EnrollmentsOf(s.enrollments, id);
              && (r.outcome == Ok <==> UserById(s, st.userId).Some? && EnrolledCoursesResolve(s, es))
              && (r.outcome != Ok ==> r.outcome == ServerError && r.body.None?)
              && (r.outcome == Ok ==>
                    && r.body.Some?
                    && r.body.value.studentId == id
                    && r.body.value.userId == st.userId
                    && r.body.value.batchId == st.batchId
                    && r.body.value.user == Some(UserDtoOf(UserById(s, st.userId).value))
                    && (r.body.value.batch.Some? <==> BatchAt(s, st.batchId).Some?)
                    && (st.batchId.None? ==> r.body.value.batch.None?)
                    && (r.body.value.batch.Some? ==>
                          r.body.value.batch.value == BatchSummary(st.batchId.value, s.batches[st.batchId.value]))
                    && |r.body.value.enrollments| == |es|
                    && forall i :: 0 <= i < |es| ==>
                         r.body.value.enrollments[i]
                         == EnrollmentDto(es[i].studentId, es[i].courseId,
                                          Some(CourseSummary(es[i].courseId, s.courses[es[i].courseId]))))
  {
    if id !in s.students then Reply(NotFound, None, s)
    else
      var st := s.students[id];
      var es := EnrollmentsOf(s.enrollments, id);
      match UserById(s, st.userId)
      case None => Reply(ServerError, None, s)
      case Some(u) =>
        if !EnrolledCoursesResolve(s, es) then Reply(ServerError, None, s)
        else
          var batch := match BatchAt(s, st.batchId) case None => None case Some(b) => Some(BatchSummary(st.batchId.value, b));
          var enrollments := seq(|es|, i requires 0 <= i < |es| && EnrolledCoursesResolve(s, es) =>
            EnrollmentDto(es[i].studentId, es[i].courseId, Some(CourseSummary(es[i].courseId, s.courses[es[i].courseId]))));
          Reply(Ok, Some(StudentDto(id, st.userId, st.batchId, Some(UserDtoOf(u)), batch, enrollments)), s)
  }

  /** PUT {id}: the same overwrite as the administrator's update, answering Ok
      with the posted body instead of NoContent. */
  function UpdateStudentProfile(s: Store, id: int, dto: StudentRequest): (r: Reply<StudentRequest>)
    ensures id !in s.students ==> r.outcome == NotFound && r.body.None? && r.store == s
    ensures id in s.students ==>
              && r.outcome == Ok && r.body == Some(dto)
              && r.store == s.(students := r.store.students)
              && r.store.students.Keys == s.students.Keys
              && r.store.students[id] == Student(dto.userId, dto.batchId)
              && forall k :: k in s.students && k != id ==> r.store.students[k] == s.students[k]
  {
    var (o, s') := Admin.OverwriteStudent(s, id, dto);
    if o == NotFound then Reply(NotFound, None, s) else Reply(Ok, Some(dto), s')
  }

  /** GET courses: one summary per course, keyed by its id. */
  function GetCourses(s: Store): (r: Reply<map<int, CourseDto>>)
    ensures r.outcome == Ok && r.store == s && r.body.Some?
    ensures r.body.value.Keys == s.courses.Keys
    ensures forall id :: id in r.body.value ==>
              && r.body.value[id].courseId == id
              && r.body.value[id].courseName == s.courses[id].courseName
              && r.body.value[id].description == s.courses[id].description
              && r.body.value[id].teacher.None?
  {
    Reply(Ok, Some(map id | id in s.courses :: CourseSummary(id, s.courses[id])), s)
  }

  /** POST enroll: one join row appended, with no check for duplicates or for
      the student and course existing. */
  function EnrollInCourse(s: Store, dto: EnrollmentRequest): (r: Reply<()>)
    ensures r.outcome == Ok && r.body.None?
    ensures r.store == s.(enrollments := r.store.enrollments)
    ensures |r.store.enrollments| == |s.enrollments| + 1
    ensures r.store.enrollments[..|s.enrollments|] == s.enrollments
    ensures r.store.enrollments[|s.enrollments|] == Enrollment(dto.studentId, dto.courseId)
  {
    var es := s.enrollments + [Enrollment(dto.studentId, dto.courseId)];
    assert es[..|s.enrollments|] == s.enrollments;
    Reply(Ok, None, s.(enrollments := es))
  }

  /** `b` is one of the student's batches: its course is a course some join
      row of that student names. */
  predicate InStudentCourse(s: Store, studentId: int, b: Batch) {
    b.courseId.Some? && Enrollment(studentId, b.courseId.value) in s.enrollments
  }

  /** GET {studentId}/batches: exactly the batches whose (non-null) course the
      student is enrolled in, as summaries keyed by batch id. */
  function GetStudentBatches(s: Store, studentId: int): (r: Reply<map<int, BatchDto>>)
    ensures r.outcome == Ok && r.store == s && r.body.Some?
    ensures forall id :: id in r.body.value <==>
              && id in s.batches
              && s.batches[id].courseId.Some?
              && exists i :: 0 <= i < |s.enrollments|
                   && s.enrollments[i].studentId == studentId
                   && s.enrollments[i].courseId == s.batches[id].courseId.value
    ensures forall id :: id in r.body.value ==> r.body.value[id] == BatchSummary(id, s.batches[id])
  {
    var rows := map id | id in s.batches && InStudentCourse(s, studentId, s.batches[id]) :: BatchSummary(id, s.batches[id]);
    Reply(Ok, Some(rows), s)
  }

  // ---------------------------------------------------------------------------
  // Properties relating several calls

  /** Enrolling adds one to the student's report count, even when the same
      (student, course) pair is already enrolled, and leaves every other
      student's count alone. */
  lemma EnrollThenReport(s: Store, dto: EnrollmentRequest, id: int)
    requires id in s.students
    ensures var s' := EnrollInCourse(s, dto).store;
            Admin.GetStudentReports(s').body.value[id].enrolledCourses
            == Admin.GetStudentReports(s).body.value[id].enrolledCourses + (if dto.studentId == id then 1 else 0)
  {
    EnrolledCountAppend(s.enrollments, Enrollment(dto.studentId, dto.courseId), id);
  }

  /** Enrolling appends the new row at the end of the enrollment list the
      administrator's read answers for that student, and changes no other
      student's list. */
  lemma EnrollThenStudentEnrollments(s: Store, dto: EnrollmentRequest, id: int)
    requires id in s.students
    ensures var before := Admin.GetStudentById(s, id).body.value.enrollments;
            var after := Admin.GetStudentById(EnrollInCourse(s, dto).store, id).body.value.enrollments;
            && (dto.studentId == id ==>
                  && |after| == |before| + 1
                  && after[..|before|] == before
                  && after[|before|].studentId == id
                  && after[|before|].courseId == dto.courseId)
            && (dto.studentId != id ==> after == before)
  {
    var e := Enrollment(dto.studentId, dto.courseId);
    var s' := EnrollInCourse(s, dto).store;
    var es := EnrollmentsOf(s.enrollments, id);
    EnrollmentsOfAppend(s.enrollments, e, id);
    Admin.EnrollmentRowsFrame(s, s', es);
    if dto.studentId == id {
      Admin.EnrollmentRowsFrame(s, s', es + [e]);
      Admin.EnrollmentRowsAppend(s, es, e);
      assert (Admin.EnrollmentRows(s, es) + Admin.EnrollmentRows(s, [e]))[..|es|] == Admin.EnrollmentRows(s, es);
    }
  }

  /** When the profile read succeeds it agrees with the administrator's read on
      UserId, BatchId, the user and the enrollment rows. */
  lemma ProfileAgreesWithGetStudentById(s: Store, id: int)
    requires GetStudentProfile(s, id).outcome == Ok
    ensures var p := GetStudentProfile(s, id).body.value;
            var a := Admin.GetStudentById(s, id).body.value;
            && p.userId == a.userId && p.batchId == a.batchId && p.user == a.user
            && |p.enrollments| == |a.enrollments|
            && forall i :: 0 <= i < |p.enrollments| ==>
                 p.enrollments[i].studentId == a.enrollments[i].studentId
                 && p.enrollments[i].courseId == a.enrollments[i].courseId
  {
  }

  /** The profile update writes exactly the store the administrator's update writes. */
  lemma UpdateStudentProfileSameStore(s: Store, id: int, dto: StudentRequest)
    ensures UpdateStudentProfile(s, id, dto).store == Admin.UpdateStudent(s, id, dto).store
  {
  }

  /** A newly created batch has no course, so it is none of any student's batches. */
  lemma CreateBatchNotInStudentBatches(s: Store, dto: BatchRequest, newId: int, studentId: int)
    requires newId !in s.batches
    ensures var rows := GetStudentBatches(Admin.CreateBatch(s, dto, newId).store, studentId).body.value;
            && newId !in rows
            && rows == GetStudentBatches(s, studentId).body.value
  {
  }

  /** Renaming a batch keeps its course link, so every student's batch keys
      stay the same. */
  lemma UpdateBatchKeepsStudentBatches(s: Store, id: int, dto: BatchRequest, studentId: int)
    ensures GetStudentBatches(Admin.UpdateBatch(s, id, dto).store, studentId).body.value.Keys
         == GetStudentBatches(s, studentId).body.value.Keys
  {
  }

  /** A newly created course is listed, with the posted name and description. */
  lemma CreateCourseThenGetCourses(s: Store, dto: CourseRequest, newId: int)
    requires newId !in s.courses
    ensures var list := GetCourses(Admin.CreateCourse(s, dto, newId).store).body.value;
            && list.Keys == s.courses.Keys + {newId}
            && list[newId] == CourseDto(newId, dto.courseName, dto.description, None)
  {
  }

  /** After enrolling in a course, every batch of that course is among the
      student's batches, and no batch the student had is lost. */
  lemma EnrollThenBatches(s: Store, dto: EnrollmentRequest)
    ensures var before := GetStudentBatches(s, dto.studentId).body.value;
            var after := GetStudentBatches(EnrollInCourse(s, dto).store, dto.studentId).body.value;
            && before.Keys <= after.Keys
            && forall id :: id in s.batches && s.batches[id].courseId == Some(dto.courseId) ==> id in after
  {
  }
}

=== FILE: teachers.dfy ===
/**
  The teacher handlers (TeacherController).

  A teacher's User relationship is required (its UserId is not nullable), so
  the reads load it by an inner join: a teacher whose UserId names no user is
  not found by GET {id} and is left out of GET. The DTOs set only TeacherId,
  User and Courses: the top-level UserId stays 0 and SubjectSpecialization
  stays null. The course list of a teacher is every
  course whose teacher link names it, without the course's own teacher.
 */
module Teachers {
  import opened Nullable
  import opened Store
  import opened Dto
  import Admin

  /** `Teachers.Any(e => e.TeacherId == id)`: some teacher row has that key, so
      looking it up yields a row. */
  function TeacherExists(s: Store, id: int): (b: bool)
    ensures b <==> exists k :: k in s.teachers && k == id
    ensures b <==> TeacherAt(s, Some(id)).Some?
  {
    id in s.teachers
  }

  /** `t.Courses.Select(c => new CourseDTO { ... })`: one summary per course
      linked to the teacher, keyed by course id. */
  function TeacherCourses(s: Store, teacherId: int): (r: map<int, CourseDto>)
    ensures forall c :: c in r <==> c in s.courses && s.courses[c].teacherId == Some(teacherId)
    ensures forall c :: c in r ==>
              && r[c].courseId == c
              && r[c].courseName == s.courses[c].courseName
              && r[c].description == s.courses[c].description
              && r[c].teacher.None?
  {
    map c | c in s.courses && s.courses[c].teacherId == Some(teacherId) :: CourseSummary(c, s.courses[c])
  }

  /** The DTO of teacher `id` whose user row is `u`. */
  function TeacherDtoOf(s: Store, id: int, u: User): TeacherDto {
    TeacherDto(id, 0, None, Some(UserDtoOf(u)), Some(TeacherCourses(s, id)))
  }

  /** A teacher row the reads can see: its required User relationship is
      loaded by an inner join, so a row whose UserId names no user is not
      returned at all. */
  predicate Readable(s: Store, id: int) {
    id in s.teachers && UserById(s, s.teachers[id].userId).Some?
  }

  /** GET {id}: NotFound unless the joined query finds the teacher. */
  function GetTeacher(s: Store, id: int): (r: Reply<TeacherDto>)
    ensures r.store == s
    ensures r.outcome in {Ok, NotFound}
    ensures r.outcome == Ok <==> TeacherExists(s, id) && UserById(s, s.teachers[id].userId).Some?
    ensures r.outcome == NotFound ==> r.body.None?
    ensures r.outcome == Ok ==>
              var t := s.teachers[id];
              && r.body.Some?
              && r.body.value.teacherId == id
              && r.body.value.userId == 0
              && r.body.value.subjectSpecialization.None?
              && r.body.value.user.Some?
              && r.body.value.user.value.userId == t.userId
              && r.body.value.user.value == UserDtoOf(UserById(s, t.userId).value)
              && r.body.value.courses == Some(TeacherCourses(s, id))
  {
    if !Readable(s, id) then Reply(NotFound, None, s)
    else Reply(Ok, Some(TeacherDtoOf(s, id, UserById(s, s.teachers[id].userId).value)), s)
  }

  /** GET: the DTO of every teacher the joined query returns, keyed by
      TeacherId; a teacher whose user is missing is left out. */
  function GetTeachers(s: Store): (r: Reply<map<int, TeacherDto>>)
    ensures r.outcome == Ok && r.store == s && r.body.Some?
    ensures forall id :: id in r.body.value <==> id in s.teachers && UserById(s, s.teachers[id].userId).Some?
    ensures forall id :: id in r.body.value ==> Some(r.body.value[id]) == GetTeacher(s, id).body
  {
    var dtos := map id | id in s.teachers && Readable(s, id) :: TeacherDtoOf(s, id, UserById(s, s.teachers[id].userId).value);
    Reply(Ok, Some(dtos), s)
  }

  /** POST: the posted teacher is inserted under the key the database picks. */
  function PostTeacher(s: Store, teacher: TeacherRequest, newId: int): (r: Reply<TeacherRequest>)
    requires newId !in s.teachers
    ensures r.outcome == Created
    ensures r.store == s.(teachers := r.store.teachers)
    ensures r.store.teachers.Keys == s.teachers.Keys + {newId}
    ensures r.store.teachers[newId] == Teacher(teacher.userId, teacher.subjectSpecialization)
    ensures forall k :: k in s.teachers ==> r.store.teachers[k] == s.teachers[k]
    ensures r.body == Some(teacher.(teacherId := newId))
    ensures TeacherExists(r.store, newId)
  {
    Reply(Created, Some(teacher.(teacherId := newId)), s.(teachers := InsertKey(s.teachers, newId, Admin.TeacherFrom(teacher))))
  }

  /** PUT {id}: BadRequest before any write when the route id differs from the
      body's TeacherId; otherwise every scalar field of the row is overwritten,
      and an update that finds no row ends in NotFound. */
  function PutTeacher(s: Store, id: int, teacher: TeacherRequest): (r: Reply<()>)
    ensures r.body.None? && r.store == s.(teachers := r.store.teachers)
    ensures id != teacher.teacherId ==> r.outcome == BadRequest && r.store == s
    ensures id == teacher.teacherId && !TeacherExists(s, id) ==> r.outcome == NotFound && r.store == s
    ensures r.outcome == NoContent <==> id == teacher.teacherId && TeacherExists(s, id)
    ensures r.outcome == NoContent ==>
              && r.store.teachers.Keys == s.teachers.Keys
              && r.store.teachers[id] == Teacher(teacher.userId, teacher.subjectSpecialization)
              && forall k :: k in s.teachers && k != id ==> r.store.teachers[k] == s.teachers[k]
  {
    if id != teacher.teacherId then Reply(BadRequest, None, s)
    else if !TeacherExists(s, id) then Reply(NotFound, None, s)
    else Reply(NoContent, None, s.(teachers := s.teachers[id := Admin.TeacherFrom(teacher)]))
  }

  /** DELETE {id}: the administrator's delete. */
  function DeleteTeacher(s: Store, id: int): (r: Reply<()>)
    ensures r.body.None?
    ensures !TeacherExists(s, id) ==> r.outcome == NotFound && r.store == s
    ensures TeacherExists(s, id) ==>
              && r.outcome == NoContent
              && r.store == s.(teachers := r.store.teachers)
              && r.store.teachers.Keys == s.teachers.Keys - {id}
              && !TeacherExists(r.store, id)
              && forall k :: k in s.teachers && k != id ==> TeacherExists(r.store, k) && r.store.teachers[k] == s.teachers[k]
  {
    Admin.DeleteTeacher(s, id)
  }

  // ---------------------------------------------------------------------------
  // Properties relating several calls

  /** A teacher that reads back exists; one that exists reads back exactly
      when its user resolves, so a teacher with a dangling UserId exists and
      still reads NotFound, and is missing from the list. */
  lemma TeacherExistsIffReadable(s: Store, id: int)
    ensures GetTeacher(s, id).outcome != NotFound ==> TeacherExists(s, id)
    ensures TeacherExists(s, id) ==>
              (GetTeacher(s, id).outcome != NotFound <==> UserById(s, s.teachers[id].userId).Some?)
    ensures TeacherExists(s, id) && UserById(s, s.teachers[id].userId).None? ==>
              id !in GetTeachers(s).body.value
  {
  }

  /** After a teacher is deleted, reading or deleting it again answers NotFound. */
  lemma DeleteTeacherThenRead(s: Store, id: int)
    ensures var s' := DeleteTeacher(s, id).store;
            GetTeacher(s', id).outcome == NotFound && DeleteTeacher(s', id).outcome == NotFound
  {
  }

  /** Renaming a course through the administrator's update keeps it in its
      teacher's course list, now with the new name and description. */
  lemma UpdateCourseKeepsTeacherCourses(s: Store, courseId: int, dto: CourseRequest, teacherId: int)
    requires courseId in s.courses && s.courses[courseId].teacherId == Some(teacherId)
    ensures var list := TeacherCourses(Admin.UpdateCourse(s, courseId, dto).store, teacherId);
            && list.Keys == TeacherCourses(s, teacherId).Keys
            && list[courseId] == CourseDto(courseId, dto.courseName, dto.description, None)
  {
  }

  /** A successful PUT is visible to the next read: the teacher's user is now
      the user the body names. */
  lemma PutThenGet(s: Store, id: int, teacher: TeacherRequest)
    requires id == teacher.teacherId && TeacherExists(s, id)
    requires UserById(s, teacher.userId).Some?
    ensures var r := GetTeacher(PutTeacher(s, id, teacher).store, id);
            r.outcome == Ok && r.body.value.user.value.userId == teacher.userId
  {
  }

  /** A teacher the administrator creates is readable at once, with the posted
      user and every course already linked to the new key. */
  lemma CreateTeacherThenGet(s: Store, dto: TeacherRequest, newId: int)
    requires newId !in s.teachers
    requires UserById(s, dto.userId).Some?
    ensures var s' := Admin.CreateTeacher(s, dto, newId).store;
            var r := GetTeacher(s', newId);
            && TeacherExists(s', newId)
            && r.outcome == Ok
            && r.body.value.user == Some(UserDtoOf(UserById(s, dto.userId).value))
            && r.body.value.courses == Some(TeacherCourses(s, newId))
  {
  }

  /** After a POST the new key exists, and it reads back exactly when the
      posted UserId names a user. */
  lemma PostTeacherThenExists(s: Store, teacher: TeacherRequest, newId: int)
    requires newId !in s.teachers
    ensures var s' := PostTeacher(s, teacher, newId).store;
            && TeacherExists(s', newId)
            && s'.teachers[newId].userId == teacher.userId
            && (GetTeacher(s', newId).outcome != NotFound <==> UserById(s, teacher.userId).Some?)
  {
  }

  /** With matching ids, the teacher controller's PUT and the administrator's
      update answer alike and leave the same store. */
  lemma UpdateTeacherMatchesPutTeacher(s: Store, id: int, teacher: TeacherRequest)
    requires id == teacher.teacherId
    ensures Admin.UpdateTeacher(s, id, teacher).store == PutTeacher(s, id, teacher).store
    ensures Admin.UpdateTeacher(s, id, teacher).outcome == PutTeacher(s, id, teacher).outcome
  {
  }

  /** A new course has no teacher, so every teacher's course list is unchanged. */
  lemma CreateCourseKeepsTeacherCourses(s: Store, dto: CourseRequest, newId: int, teacherId: int)
    requires newId !in s.courses
    ensures TeacherCourses(Admin.CreateCourse(s, dto, newId).store, teacherId) == TeacherCourses(s, teacherId)
  {
  }

  /** A teacher created with a UserId that names no user exists, reads
      NotFound, and is left out of the list. */
  lemma DanglingUserTeacherNotFound()
    ensures var s := Admin.CreateTeacher(Store([], map[], map[], map[], map[], []), TeacherRequest(0, 99, "Math"), 1).store;
            && TeacherExists(s, 1)
            && GetTeacher(s, 1).outcome == NotFound
            && GetTeachers(s).body.value == map[]
  {
  }
}
